=== FILE: README.md ===
# Portfolio interactivity, modelled in Dafny

The portfolio site ships two browser scripts, `js/script.js` and its trimmed
variant `js/script-clean.js`. Both are flat sets of DOM event handlers, but a
few of those handlers hold real decision logic. This project lifts that logic
out of the DOM and states it over immutable records:

- **Theme** (`theme.dfy`). The `data-theme` attribute, the `theme` storage
  entry and the toggle icon. The initial theme is
  `localStorage.getItem('theme') || 'light'`. A click toggles `dark`→`light`
  and anything else→`dark`, then writes both the attribute and storage. The
  sun icon shows exactly in dark mode.
- **Mobile menu** (`menu.dfy`). The two `active` flags and the three click
  handlers. A click is dispatched to every handler it reaches, in bubbling
  order.
- **Scroll-spy** (`scrollspy.dfy`). The linear scan over the section
  intervals `[top, top+height)` at `pageYOffset + 100`. The last containing
  section wins, and `home` wins whenever `pageYOffset < 50`. Afterwards,
  exactly the links whose `href` is `#`+id are active.
- **Anchor navigation** (`navigation.dfy`). A `Page` record holds the menu
  flags, the sections, the links and the last scroll request. The handlers
  are `initSimpleNavigation` (nav links and hero buttons), `initCleanNavigation`
  (with its `#` guard) and the page-level scroll handler.
- **Contact form** (`email.dfy`, `contactform.dfy`). The presence check comes
  first, then `isValidEmail`. `isValidEmail` is proved equivalent to a direct
  reading of `/^[^\s@]+@[^\s@]+\.[^\s@]+$/`. On success the form is reset. The
  module also models `getNotificationIcon`.
- **Mouse trail** (`mousetrail.dfy`). The bounded buffer of at most 20 points.
- **Reveal observers** (`reveal.dfy`). The about, experience and education
  observers, as transitions on the observed set, the `in-view` set and the
  staggered timers (150 ms per stat, 120 ms per badge).
- **Typewriters** (`typewriter.dfy`). The per-character step functions of
  `js/script.js` and the token stream of `initTypewriterAnimation`, which
  opens the highlight at `indexOf("V Ganesh")` and closes it after the last
  character.

Where the two scripts hold the same logic, it is defined once. The rows below
cite whichever file's lines the member is written against; the other file's
copy behaves identically. The exceptions are called out in the rows.

Two behaviours of the code are easy to misread.
- The stored theme need not be `light` or `dark`. The load code accepts any
  stored string. An empty entry falls back to `light`, and any other unknown
  value is shown as is, with the moon icon, until the first click turns it
  into `dark`.
- Scrolling into a section does not always mark exactly one link active.
  That holds only when the hrefs are distinct and some link names the section
  (`ScrollSpy.ExactlyOneActive`). Below 50 px `home` wins whatever section is
  in view. When no section contains the probe, the only links marked are
  those whose href is a bare `#`.

The `#` guard of `initCleanNavigation` is redundant, though harmless.
`getElementById("")` never finds an element, so the unguarded handler already
does nothing for `#` (`Navigation.HashGuardRedundant`).

`js/script.js` has an unmatched closing brace at line 149, right after
`updateActiveNavLink`, so as a file it does not parse. The model follows the
function bodies as written and makes no claim that the file runs.

## Model

| member | source | states |
|---|---|---|
| Options.DropFirst | js/script.js:23 | `substring(1)` removes exactly the first character and leaves the empty string alone |
| Theme.InitialTheme | js/script.js:81 | the starting theme is never empty. It is `light` exactly when storage is missing, empty or `light`, and otherwise the stored value |
| Theme.IconFor | js/script.js:102-107 | the icon is the sun iff the theme is `dark`, the moon otherwise |
| Theme.Toggled | js/script.js:89 | the new theme is always `light` or `dark`, `light` iff the old one was `dark`, and never equal to the old one |
| Theme.Init | js/script-clean.js:21-28 | page load leaves storage untouched and gives a non-empty attribute (`light` with the moon when nothing is stored). The icon follows the attribute and the state is coherent |
| Theme.Click | js/script-clean.js:30-42 | after a click the attribute is `light` or `dark`, it is `dark` iff it was not `dark` before, storage holds the attribute, and the icon follows |
| Theme.TwoTogglesRestore | js/script.js:88-92 | two toggles restore the theme iff it was `light` or `dark`; any other value ends as `light` |
| Theme.DoubleClick | js/script.js:87-93 | two clicks restore the attribute iff it was `light` or `dark`, and the whole state when storage already agreed |
| Theme.ReloadRestores | js/script.js:81-92 | re-running the load code on the stored value reproduces any coherent state |
| Theme.ClicksFromLoad | js/script-clean.js:21-41 | after any number of clicks from page load the state is coherent. After at least one click storage equals the attribute, and `dark` alternates with the parity of the click count |
| MobileMenu.HamburgerClick | js/script.js:117-120 | both flags flip, whatever they were, so the flags stay equal iff they were equal |
| MobileMenu.LinkClick | js/script-clean.js:56-61 | a link click leaves both flags cleared |
| MobileMenu.DocumentClick | js/script.js:131-136 | a click outside both elements closes both flags; a click inside either changes nothing |
| MobileMenu.Dispatch | js/script-clean.js:51-68 | with every reached handler run in bubbling order, a hamburger click flips both flags, a link click or an outside click leaves both off, and a click inside the menu changes nothing |
| MobileMenu.DispatchKeepsSynced | js/script-clean.js:51-68 | every click keeps the flags equal. A link or outside click leaves both off, only a hamburger click can open the menu, and it flips it |
| MobileMenu.RunKeepsSynced | js/script.js:117-136 | over any click sequence the flags stay equal, and a closed menu ends open only if the hamburger was among the clicks |
| ScrollSpy.LastContainingUnique | js/script.js:161-168 | the last section containing a position is unique |
| ScrollSpy.Scan | js/script.js:161-168 | the `forEach` scan keeps its start value when no interval contains the position, and otherwise returns the id of the last containing section |
| ScrollSpy.CurrentSection | js/script.js:157-173 | the current id is `home` whenever `pageYOffset < 50`. Otherwise it is the last section containing `pageYOffset + 100`, or `''` when none does |
| ScrollSpy.Activate | js/script.js:140-147 | hrefs and length are kept, and a link is active iff its href is `#`+id, whatever its previous state |
| ScrollSpy.UpdateActiveLink | js/script.js:156-182 | after a scroll update only `#home` is active at the top. Otherwise exactly the links naming the last containing section are active, or only `#` links when no section contains the probe |
| ScrollSpy.ExactlyOneActive | js/script-clean.js:116-124 | with distinct hrefs, exactly one link is active when one names the section, and none otherwise |
| ScrollSpy.ActivateForgetsPast | js/script.js:176-181 | the result does not depend on the prior `active` flags, and repeating the update is a no-op |
| Navigation.ScrollTarget | js/script.js:36-37 | the scroll position lies exactly the 80 px navbar height above the target's `offsetTop` |
| Navigation.GetElementById | js/script-clean.js:83-84 | lookup returns the first section carrying the id. It returns nothing iff the id is empty or absent |
| Navigation.GoTo | js/script-clean.js:86-106 | a found target yields scroll request `offsetTop - 80` and exactly the matching links active. The menu is closed or kept as requested, and sections and hrefs are unchanged |
| Navigation.SimpleNavClick | js/script.js:19-48 | a nav-link click with no target changes nothing. Otherwise it closes the menu, scrolls to `offsetTop - 80`, and makes exactly the links naming the target active. Sections and hrefs are never changed |
| Navigation.HeroButtonClick | js/script.js:53-71 | the hero-button handler itself leaves the menu flags, the sections and the hrefs alone. With no target it changes nothing; otherwise it scrolls to `offsetTop - 80` and makes exactly the links naming the target active |
| Navigation.HeroButtonClickMain | js/script.js:131-136 | the whole hero-button click, with the document handler run after the button's own, closes the menu (the buttons lie outside it) and otherwise has the button handler's scroll and link effects |
| Navigation.CleanNavClick | js/script-clean.js:76-109 | `#` and a missing target change nothing. Otherwise the menu closes, the scroll request is `offsetTop - 80`, and a link is active iff its href equals the clicked href |
| Navigation.HashGuardRedundant | js/script-clean.js:80-84 | on every `#`-prefixed href the clean handler equals the unguarded one |
| Navigation.NavLinkClickMain | js/script.js:4-6 | with the mobile handler registered first, every nav-link click leaves the menu closed, even when the target is missing. The sections are kept, and the scroll request and links are exactly those of the navigation handler alone |
| Navigation.NavLinkClickClean | js/script-clean.js:5-7 | the same for the clean variant. The sections are kept; the links change to the matching activation, and the scroll request to `offsetTop - 80`, exactly when the target exists |
| Navigation.OnScroll | js/script-clean.js:127-155 | `updateActiveNavOnScroll` changes only the links' active flags, keeping their hrefs, and follows the scroll-spy rule (`home` at the top, the last containing section otherwise) |
| Email.ValidEmailIffRegex | js/script.js:234-237 | the email check holds iff the string is a non-empty `[^\s@]` run, `@`, a non-empty run, `.`, and a non-empty run |
| Email.ValidImpliesRegex | js/script-clean.js:199-202 | every accepted string has such a decomposition |
| Email.RegexImpliesValid | js/script.js:235 | every string with such a decomposition is accepted: no whitespace, one `@` not at the start, and a `.` strictly inside the part after it |
| ContactForm.Validate | js/script.js:216-228 | the result is "fill in all fields" iff some field is missing or empty, "invalid email" iff all are filled and the email does not match the pattern, and a submission of the four values otherwise |
| ContactForm.PresenceBeforeShape | js/script-clean.js:171-179 | while another field is empty, the email's value cannot change the result |
| ContactForm.Reset | js/script-clean.js:191 | reset empties every present field and adds or removes none |
| ContactForm.Submit | js/script-clean.js:171-193 | an error leaves the form as it was; a submission ends with the form reset, so no longer fully filled |
| ContactForm.NoDoubleSubmission | js/script.js:254-255 | submitting again right after a successful submission is refused for missing fields |
| ContactForm.NotificationIcon | js/script.js:328-335 | the icon is one of four: `check-circle` iff the type is success, `exclamation-circle` iff error, `exclamation-triangle` iff warning, and `info-circle` iff it is none of these |
| ContactForm.Feedback | js/script.js:216-258 | the notification is of type success iff the form was submitted. Both errors show `exclamation-circle`, a submission `check-circle` |
| MouseTrail.Push | js/script.js:541-546 | from a trail of at most 20 points, a move gives the last 20 of the trail plus the new point, ending with the new point |
| MouseTrail.Replay | js/script.js:538-546 | the trail never holds more than 20 points |
| MouseTrail.ReplayKeepsLatest | js/script.js:538-546 | after any sequence of moves the trail is exactly the most recent 20 (or fewer) points in arrival order |
| MouseTrail.DotStyle | js/script.js:552-567 | within the bound every dot keeps a width of at least 2.2 px and an opacity of at least 0.05 |
| Reveal.Stagger | js/script-clean.js:280-282 | one timer per element, in document order, element `i` at `i * step` ms. The first fires at 0, and with a positive step the delays strictly increase |
| Reveal.Observe | js/script-clean.js:304 | exactly the found elements are observed, and nothing is in view or scheduled |
| Reveal.OnEntry | js/script-clean.js:296-302 | an intersecting entry adds its target to `in-view`, removes it from the observed set and appends its staggered timers. A non-intersecting entry changes nothing |
| Reveal.Callback | js/script-clean.js:340-355 | a batch adds exactly its intersecting targets to `in-view` and removes exactly those from the observed set. It appends exactly the staggered timers of its intersecting entries, in entry order, after the pending ones |
| Reveal.ScheduledCoversEntries | js/script-clean.js:280-282 | every staggered timer of every intersecting entry in a batch is among the timers the batch schedules |
| Reveal.RevealedNeverFiresAgain | js/script-clean.js:284 | once revealed, an element is in view and can appear in no later batch the browser delivers |
| Reveal.RunMonotone | js/script-clean.js:273-289 | over any run of batches `in-view` only grows, the observed set only shrinks, and newly revealed elements are no longer observed |
| Reveal.CallbackIdempotent | js/script-clean.js:297-301 | delivering the same batch twice leaves `in-view` and the observed set as one delivery does |
| Reveal.FireTimers | js/script-clean.js:349 | once the timers fire, every scheduled element is in view and nothing stays pending |
| Reveal.AboutRevealsAllStats | js/script-clean.js:266-290 | revealing the about block and firing its timers puts the block and every stat block in view |
| Typewriter.TypeStep | js/script.js:398-404 | while characters remain, a tick appends exactly the next one; afterwards it only finishes |
| Typewriter.TypeStepsPrefix | js/script.js:471-481 | after `n` ticks the output is the text's first `n` characters. Past the text length the whole text is out and the typer has finished |
| Typewriter.IndexOf | js/script-clean.js:211 | `indexOf` returns the first occurrence, or -1 iff there is none |
| Typewriter.StepTokens | js/script-clean.js:232-244 | a tick emits one to three tokens: the open token first iff its index is `start`, then its character, and the close token last iff it is the last index |
| Typewriter.StepTokensFacts | js/script-clean.js:234-244 | the only character a tick types is its own |
| Typewriter.StepTokensMarkers | js/script-clean.js:234-244 | a tick emits the open token iff its index is `start`, and the close token iff it is the last index |
| Typewriter.EmittedChars | js/script-clean.js:230-247 | the characters typed by the first `n` ticks are the text's first `n` characters |
| Typewriter.EmittedMarkers | js/script-clean.js:235-244 | the open token is out iff the tick at `start` ran, and the close token iff the whole non-empty text was typed |
| Typewriter.EmittedLayout | js/script-clean.js:232-244 | with `start` inside the text, the output is the plain prefix, open, the rest, and close at the end |
| Typewriter.WriterStep | js/script-clean.js:230-250 | while characters remain, a tick emits that index's tokens and advances by one; once the text is out, a tick changes nothing but starts the cursor blinking |
| Typewriter.WriterRuns | js/script-clean.js:230-257 | the animation runs exactly `|fullText|` character ticks. Every later tick only starts the cursor blinking |
| Typewriter.HeroHighlightStart | js/script-clean.js:210-211 | for the site's title the highlight starts at index 8 |
| Typewriter.HeroTitle | js/script-clean.js:209-247 | for the site's title the output is `Hi, I'm `, open, `V Ganesh`, close, and the typed characters are the whole title |

## Left out

- DOM querying, event registration, `IntersectionObserver` and `localStorage` are I/O. The model keeps them as fields and lists of the records.
- Missing DOM elements are not modelled. The theme and menu handlers of both files would throw on a missing element. The model assumes every element exists.
- `getElementById` searches only the sections. An id carried by some other element is not modelled.
- `pageYOffset`, `offsetTop` and `offsetHeight` are integers here. A fractional `pageYOffset` under zoom is not modelled.
- Timers are not modelled: `setTimeout` delays (typing ticks of 100 ms, start delays of 1000 ms, the 2000 ms simulated send), `requestAnimationFrame`, the `ticking`/`isScrolling` throttles and `debounce`. `ContactForm.Submit` collapses the simulated send into one step. `Reveal` keeps stagger timers as a pending list.
- The scroll events triggered by `window.scrollTo` are not modelled. They would run the scroll-spy handler again.
- ContactForm.Reset: assumes the form fields carry no default values, since `reset()` restores defaults and not necessarily `""`.
- MouseTrail.DotStyle: uses tenths of a pixel and hundredths of opacity, so the floating-point rounding of `index * 0.2` and `index * 0.05` is not modelled. In doubles the last dot comes out a hair below the stated bounds (about 2.1999 px and 0.0499). `initMouseTrail` is not called by the script (line 583 is commented out).
- Email.IsSpace works on Unicode scalar values. JavaScript strings are UTF-16, so lone surrogates are outside the model.
- Typewriter.TypeStep: a Dafny `char` is a Unicode scalar value, while `charAt` and `length` count UTF-16 code units. For text outside the Basic Multilingual Plane the source types half a surrogate pair per tick; the model types whole characters.
- Typewriter.TypeStepsPrefix: counts ticks in scalar values for the same reason. It matches the source only for texts whose characters all lie in the Basic Multilingual Plane. That is known of `initTypingEffect`'s `V Ganesh`; the text `initTypewriterEffect` types comes from markup outside the scripts.
- Typewriter.IndexOf: returns a position in scalar values, not in UTF-16 code units. The two agree on Basic Multilingual Plane texts such as the site's title.
- Typewriter.WriterRuns: runs `|fullText|` ticks counted in scalar values, not `fullText.length` in UTF-16 code units.
- Intersection geometry (`threshold`, `rootMargin`) is reduced to the entry's `isIntersecting` flag.
- `innerHTML` re-parsing is not modelled. The typed output is a string or a token sequence.
- `initTypingEffect` is not called by the script either. It is modelled by the same step function as `initTypewriterEffect`.
- Floating-point code is left out: the scroll-progress percentage, the parallax rates and `Math.sin`, and the date-based years-of-experience calculation (the fixed `8m` label is presentation).
- `initScrollAnimations` and `initAdvancedScrollAnimations` observe their elements for good (they never unobserve) and only set inline opacity and transform styles when one intersects. The `load` handler adds the `loaded` class to the body and fades sections in. None of this holds decision logic, so it is left out.
- Left out as presentation: the navbar styling of the unified scroll handler (both branches set the same values), notification styling and removal, the toggle button's scale animation, `alert`, `console.log` and `downloadResume`.

=== FILE: contactform.dfy ===
/** The contact form's submit handler and the notification it raises. */
module ContactForm {
  import opened Options
  import opened Email

  /** What `FormData.get` returns for the four fields: `None` when the form has
      no such field, otherwise the field's text. */
  datatype Form = Form(name: Option<string>, email: Option<string>, subject: Option<string>, message: Option<string>)

  /** The result of one submit: an error before anything is sent, or a
      simulated submission of the four values. */
  datatype Outcome =
    | MissingFields
    | InvalidEmail
    | Submitted(name: string, email: string, subject: string, message: string)

  /** JavaScript truthiness of a `FormData` value: neither `null` nor `""`. */
  predicate Filled(v: Option<string>)
  {
    v.Some? && v.value != ""
  }

  predicate AllFilled(f: Form)
  {
    Filled(f.name) && Filled(f.email) && Filled(f.subject) && Filled(f.message)
  }

  /** The submit handler's decision: presence of all four fields first, the
      email shape second, and only then a submission. */
  function Validate(f: Form): (o: Outcome)
    ensures o == MissingFields <==> !AllFilled(f)
    ensures o == InvalidEmail <==> AllFilled(f) && !RegexMatches(f.email.value)
    ensures o.Submitted? <==> AllFilled(f) && RegexMatches(f.email.value)
    ensures o.Submitted? ==> o == Submitted(f.name.value, f.email.value, f.subject.value, f.message.value)
  {
    if !AllFilled(f) then MissingFields
    else
      ValidEmailIffRegex(f.email.value);
      if !IsValidEmail(f.email.value) then InvalidEmail
      else Submitted(f.name.value, f.email.value, f.subject.value, f.message.value)
  }

  /** `form.reset()`: every field present in the form is emptied (the fields
      carry no default values). */
  function Reset(f: Form): (r: Form)
    ensures !Filled(r.name) && !Filled(r.email) && !Filled(r.subject) && !Filled(r.message)
    ensures r.name.Some? == f.name.Some? && r.email.Some? == f.email.Some?
    ensures r.subject.Some? == f.subject.Some? && r.message.Some? == f.message.Some?
  {
    Form(Clear(f.name), Clear(f.email), Clear(f.subject), Clear(f.message))
  }

  function Clear(v: Option<string>): Option<string>
  {
    if v.Some? then Some("") else None
  }

  /** One submit, with the form as it is afterwards: unchanged on an error,
      reset once the simulated submission completes. */
  function Submit(f: Form): (r: (Outcome, Form))
    ensures r.0 == Validate(f)
    ensures !r.0.Submitted? ==> r.1 == f
    ensures r.0.Submitted? ==> r.1 == Reset(f) && !AllFilled(r.1)
  {
    var o := Validate(f);
    if o.Submitted? then (o, Reset(f)) else (o, f)
  }

  /** A second submit right after a successful one is refused for missing fields. */
  lemma NoDoubleSubmission(f: Form)
    requires Submit(f).0.Submitted?
    ensures Submit(Submit(f).1).0 == MissingFields
  {
  }

  /** An empty field wins over a malformed email: while any other field is
      empty, the email's value makes no difference. */
  lemma PresenceBeforeShape(f: Form, e: Option<string>)
    requires !Filled(f.name) || !Filled(f.subject) || !Filled(f.message)
    ensures Validate(f.(email := e)) == MissingFields
  {
  }

  /** `getNotificationIcon`: the Font Awesome icon for a notification type,
      `info-circle` for any type it does not know. */
  function NotificationIcon(kind: string): (icon: string)
    ensures icon in {"check-circle", "exclamation-circle", "exclamation-triangle", "info-circle"}
    ensures icon == "info-circle" <==> kind != "success" && kind != "error" && kind != "warning"
    ensures icon == "exclamation-circle" <==> kind == "error"
    ensures icon == "check-circle" <==> kind == "success"
    ensures icon == "exclamation-triangle" <==> kind == "warning"
  {
    match kind
    case "success" => "check-circle"
    case "error" => "exclamation-circle"
    case "warning" => "exclamation-triangle"
    case _ => "info-circle"
  }

  /** The notification the handler shows for an outcome: message and type. */
  function Feedback(o: Outcome): (r: (string, string))
    ensures o.Submitted? <==> r.1 == "success"
    ensures !o.Submitted? ==> NotificationIcon(r.1) == "exclamation-circle"
    ensures o.Submitted? ==> NotificationIcon(r.1) == "check-circle"
  {
    match o
    case MissingFields => ("Please fill in all fields.", "error")
    case InvalidEmail => ("Please enter a valid email address.", "error")
    case Submitted(_, _, _, _) => ("Thank you for your message! I'll get back to you soon.", "success")
  }
}

=== FILE: email.dfy ===
/** `isValidEmail`: the regular expression `^[^\s@]+@[^\s@]+\.[^\s@]+$`. */
module Email {

  /** The characters JavaScript's `\s` matches: the WhiteSpace and
      LineTerminator code points of ECMAScript. */
  predicate IsSpace(c: char)
  {
    || c == '\t' || c == '\n' || c == '\U{000B}' || c == '\U{000C}' || c == '\r' || c == ' '
    || c == '\U{00A0}' || c == '\U{1680}' || ('\U{2000}' <= c <= '\U{200A}')
    || c == '\U{2028}' || c == '\U{2029}' || c == '\U{202F}' || c == '\U{205F}'
    || c == '\U{3000}' || c == '\U{FEFF}'
  }

  /** A character of the class `[^\s@]`. */
  predicate Plain(c: char)
  {
    !IsSpace(c) && c != '@'
  }

  /** Every character of `s` is in `[^\s@]`. */
  predicate AllPlain(s: string)
  {
    forall i | 0 <= i < |s| :: Plain(s[i])
  }

  /** The regular expression, read directly: three non-empty runs of `[^\s@]`
      separated by the `@` at index `at` and the `.` at index `dot`. A match
      may pick any `.` after the `@`, which is how backtracking resolves it. */
  ghost predicate RegexMatches(s: string)
  {
    exists at, dot | 0 < at && at + 1 < dot && dot + 1 < |s| ::
      && s[at] == '@' && s[dot] == '.'
      && AllPlain(s[..at]) && AllPlain(s[at + 1..dot]) && AllPlain(s[dot + 1..])
  }

  /** `String.prototype.indexOf` for one character: the first index holding
      `c`, or -1. */
  function IndexOfChar(s: string, c: char): (r: int)
    ensures -1 <= r < |s|
    ensures r >= 0 ==> s[r] == c && forall j | 0 <= j < r :: s[j] != c
    ensures r == -1 <==> c !in s
    decreases |s|
  {
    if |s| == 0 then -1
    else if s[0] == c then 0
    else
      var r := IndexOfChar(s[1..], c);
      assert c in s[1..] ==> c in s;
      assert c in s && c != s[0] ==> c in s[1..];
      if r == -1 then -1 else r + 1
  }

  /** `d` has a `.` with at least one character on each side. */
  predicate HasInnerDot(d: string)
  {
    exists i | 1 <= i <= |d| - 2 :: d[i] == '.'
  }

  /** The email check as the shape the expression accepts: no whitespace, a
      first `@` that is not the first character and is the only one, and an
      inner `.` in the part after it. */
  predicate IsValidEmail(s: string)
  {
    && (forall i | 0 <= i < |s| :: !IsSpace(s[i]))
    && var at := IndexOfChar(s, '@');
       && at >= 1
       && '@' !in s[at + 1..]
       && HasInnerDot(s[at + 1..])
  }

  /** The shape check accepts exactly the strings the regular expression matches. */
  lemma ValidEmailIffRegex(s: string)
    ensures IsValidEmail(s) <==> RegexMatches(s)
  {
    if IsValidEmail(s) {
      ValidImpliesRegex(s);
    }
    if RegexMatches(s) {
      RegexImpliesValid(s);
    }
  }

  lemma ValidImpliesRegex(s: string)
    requires IsValidEmail(s)
    ensures RegexMatches(s)
  {
    var at := IndexOfChar(s, '@');
    var d := s[at + 1..];
    var i :| 1 <= i <= |d| - 2 && d[i] == '.';
    var dot := at + 1 + i;
    assert s[dot] == d[i];
    forall j | 0 <= j < |s| && j != at
      ensures s[j] != '@'
    {
      if j > at { assert s[j] == d[j - at - 1]; }
    }
    assert AllPlain(s[..at]);
    assert AllPlain(s[at + 1..dot]);
    assert AllPlain(s[dot + 1..]);
  }

  lemma RegexImpliesValid(s: string)
    requires RegexMatches(s)
    ensures IsValidEmail(s)
  {
    var at, dot :| 0 < at && at + 1 < dot && dot + 1 < |s|
      && s[at] == '@' && s[dot] == '.'
      && AllPlain(s[..at]) && AllPlain(s[at + 1..dot]) && AllPlain(s[dot + 1..]);
    PlainOutsideSeparators(s, at, dot);
    assert IndexOfChar(s, '@') == at;
    var d := s[at + 1..];
    assert '@' !in d by {
      forall k | 0 <= k < |d| ensures d[k] != '@' {
        assert d[k] == s[at + 1 + k];
      }
    }
    assert d[dot - at - 1] == '.';
  }

  /** In a decomposition the regular expression accepts, every character other
      than the `@` and the chosen `.` is in `[^\s@]`, and the `.` is no space. */
  lemma PlainOutsideSeparators(s: string, at: int, dot: int)
    requires 0 < at && at + 1 < dot && dot + 1 < |s| && s[at] == '@' && s[dot] == '.'
    requires AllPlain(s[..at]) && AllPlain(s[at + 1..dot]) && AllPlain(s[dot + 1..])
    ensures forall j | 0 <= j < |s| && j != at && j != dot :: Plain(s[j])
    ensures forall j | 0 <= j < |s| :: !IsSpace(s[j])
    ensures forall j | 0 <= j < |s| && j != at :: s[j] != '@'
  {
    forall j | 0 <= j < |s| && j != at && j != dot
      ensures Plain(s[j])
    {
      if j < at {
        assert s[j] == s[..at][j];
      } else if j < dot {
        assert s[j] == s[at + 1..dot][j - at - 1];
      } else {
        assert s[j] == s[dot + 1..][j - dot - 1];
      }
    }
  }
}

=== FILE: menu.dfy ===
/** The mobile menu: the `active` class on the hamburger button and on the
    navigation menu, driven by three click handlers. */
module MobileMenu {

  /** The two `active` flags. */
  datatype Flags = Flags(hamburger: bool, menu: bool)

  /** The state of a freshly loaded page: neither element carries `active`. */
  const Closed := Flags(false, false)

  /** The two flags agree, so the button never shows "open" over a closed menu. */
  predicate Synced(f: Flags)
  {
    f.hamburger == f.menu
  }

  /** Where a click lands, as far as the three handlers can tell. */
  datatype Target = OnHamburger | OnNavLink | InsideMenu | Outside

  /** Click on the hamburger: `classList.toggle('active')` on both elements. */
  function HamburgerClick(f: Flags): (r: Flags)
    ensures r.hamburger != f.hamburger && r.menu != f.menu
    ensures Synced(r) <==> Synced(f)
  {
    Flags(!f.hamburger, !f.menu)
  }

  /** Click on a navigation link: `classList.remove('active')` on both. */
  function LinkClick(f: Flags): (r: Flags)
    ensures Synced(r) && !r.menu
  {
    Closed
  }

  /** The document-level click handler: it closes both only when the click is
      neither inside the hamburger nor inside the menu. */
  function DocumentClick(f: Flags, inHamburger: bool, inMenu: bool): (r: Flags)
    ensures !inHamburger && !inMenu ==> r == Closed
    ensures inHamburger || inMenu ==> r == f
  {
    if !inHamburger && !inMenu then Closed else f
  }

  /** One click, running every handler it reaches in registration order: the
      element's own handler first, then the document handler it bubbles to.
      Navigation links sit inside the menu. */
  function Dispatch(f: Flags, t: Target): (r: Flags)
    ensures t == OnHamburger ==> r.hamburger != f.hamburger && r.menu != f.menu
    ensures t == OnNavLink || t == Outside ==> r == Closed
    ensures t == InsideMenu ==> r == f
  {
    match t
    case OnHamburger => DocumentClick(HamburgerClick(f), true, false)
    case OnNavLink => DocumentClick(LinkClick(f), false, true)
    case InsideMenu => DocumentClick(f, false, true)
    case Outside => DocumentClick(f, false, false)
  }

  /** A sequence of clicks. */
  function Run(f: Flags, clicks: seq<Target>): Flags
    decreases |clicks|
  {
    if |clicks| == 0 then f else Run(Dispatch(f, clicks[0]), clicks[1..])
  }

  /** Every click keeps the flags in step; a link click or an outside click
      leaves the menu closed; only the hamburger can open it. */
  lemma DispatchKeepsSynced(f: Flags, t: Target)
    requires Synced(f)
    ensures Synced(Dispatch(f, t))
    ensures t == OnNavLink || t == Outside ==> Dispatch(f, t) == Closed
    ensures Dispatch(f, t).menu && !f.menu ==> t == OnHamburger
    ensures t == OnHamburger ==> Dispatch(f, t).menu == !f.menu
  {
  }

  /** From page load, the flags agree after every sequence of clicks, and the
      menu is open only if the hamburger was clicked at some point. */
  lemma {:induction false} RunKeepsSynced(f: Flags, clicks: seq<Target>)
    requires Synced(f)
    ensures Synced(Run(f, clicks))
    ensures Run(f, clicks).menu && !f.menu ==> OnHamburger in clicks
    decreases |clicks|
  {
    if |clicks| > 0 {
      DispatchKeepsSynced(f, clicks[0]);
      RunKeepsSynced(Dispatch(f, clicks[0]), clicks[1..]);
      assert clicks == [clicks[0]] + clicks[1..];
    }
  }
}

=== FILE: mousetrail.dfy ===
/** The mouse-trail buffer of `initMouseTrail`: the pointer positions behind
    the trail dots. */
module MouseTrail {

  /** `{ x: e.clientX, y: e.clientY }`. */
  datatype Point = Point(x: int, y: int)

  /** `maxTrail`. */
  const MaxTrail: nat := 20

  /** The last `n` elements of `s` (all of them when there are fewer). */
  function LastN<T>(s: seq<T>, n: nat): (r: seq<T>)
    ensures |r| == if |s| < n then |s| else n
  {
    if |s| <= n then s else s[|s| - n..]
  }

  /** One `mousemove`: push the point, then `shift` once if the trail grew
      past the bound. */
  function Push(trail: seq<Point>, p: Point): (r: seq<Point>)
    requires |trail| <= MaxTrail
    ensures |r| <= MaxTrail
    ensures |r| > 0 && r[|r| - 1] == p
    ensures r == LastN(trail + [p], MaxTrail)
  {
    var t := trail + [p];
    if |t| > MaxTrail then t[1..] else t
  }

  /** The trail after a sequence of moves, starting from the empty array. */
  function Replay(moves: seq<Point>): (r: seq<Point>)
    ensures |r| <= MaxTrail
    decreases |moves|
  {
    if |moves| == 0 then [] else Push(Replay(moves[..|moves| - 1]), moves[|moves| - 1])
  }

  /** The trail always holds exactly the most recent (at most 20) points, in
      the order they arrived. */
  lemma {:induction false} ReplayKeepsLatest(moves: seq<Point>)
    ensures Replay(moves) == LastN(moves, MaxTrail)
    decreases |moves|
  {
    if |moves| > 0 {
      var init := moves[..|moves| - 1];
      var last := moves[|moves| - 1];
      ReplayKeepsLatest(init);
      assert init + [last] == moves;
      PushLatest(init, last);
    }
  }

  /** Pushing onto the latest points of `s` gives the latest points of `s`
      followed by `p`. */
  lemma PushLatest(s: seq<Point>, p: Point)
    ensures Push(LastN(s, MaxTrail), p) == LastN(s + [p], MaxTrail)
  {
    var prev := LastN(s, MaxTrail);
    var u := s + [p];
    if |s| >= MaxTrail {
      var t := prev + [p];
      assert prev == s[|s| - MaxTrail..];
      assert t[1..] == s[|s| - MaxTrail + 1..] + [p];
      assert u[|u| - MaxTrail..] == s[|s| - MaxTrail + 1..] + [p];
    }
  }

  /** The size and opacity of the dot at `index` (0 is the oldest point), in
      tenths of a pixel and hundredths: `6 - index * 0.2` px and
      `1 - index * 0.05`. */
  function DotStyle(index: nat): (r: (int, int))
    requires index < MaxTrail
    ensures r.0 >= 22 && r.1 >= 5
  {
    (60 - 2 * index, 100 - 5 * index)
  }
}

=== FILE: navigation.dfy ===
/** Anchor navigation and the page-level scroll handler, over an immutable
    record of the page state the handlers touch. */
module Navigation {
  import opened Options
  import opened MobileMenu
  import opened ScrollSpy

  /** Height of the fixed navbar that a scroll target leaves room for. */
  const NavbarHeight: int := 80

  /** The page as the navigation handlers see it: the menu flags, the sections
      in document order, the `.nav-link` anchors, and the last `window.scrollTo`
      request (`None` before any). */
  datatype Page = Page(menu: Flags, sections: seq<Section>, links: seq<Link>, scrollRequest: Option<int>)

  /** `document.getElementById(id)`, restricted to the sections: the first
      section carrying the id; the empty id matches nothing. */
  function GetElementById(sections: seq<Section>, id: string): (r: Option<Section>)
    ensures r.Some? ==> id != "" && r.value.id == id
    ensures r.Some? ==>
      exists k | 0 <= k < |sections| :: sections[k] == r.value && forall j | 0 <= j < k :: sections[j].id != id
    ensures r.None? <==> id == "" || forall k | 0 <= k < |sections| :: sections[k].id != id
    decreases |sections|
  {
    if id == "" || |sections| == 0 then None
    else if sections[0].id == id then Some(sections[0])
    else
      var r := GetElementById(sections[1..], id);
      assert r.Some? ==> exists k | 0 <= k < |sections| :: sections[k] == r.value && forall j | 0 <= j < k :: sections[j].id != id by {
        if r.Some? {
          var k :| 0 <= k < |sections| - 1 && sections[1..][k] == r.value && forall j | 0 <= j < k :: sections[1..][j].id != id;
          assert forall j | 0 <= j < k + 1 :: sections[j].id != id by {
            forall j | 0 <= j < k + 1 ensures sections[j].id != id {
              if j > 0 { assert sections[j] == sections[1..][j - 1]; }
            }
          }
        }
      }
      assert r.None? && (forall k | 0 <= k < |sections| - 1 :: sections[1..][k].id != id) ==>
        forall k | 0 <= k < |sections| :: sections[k].id != id by {
        if r.None? && (forall k | 0 <= k < |sections| - 1 :: sections[1..][k].id != id) {
          forall k | 0 <= k < |sections| ensures sections[k].id != id {
            if k > 0 { assert sections[k] == sections[1..][k - 1]; }
          }
        }
      }
      r
  }

  /** The scroll position that brings a section's top just below the navbar. */
  function ScrollTarget(target: Section): (y: int)
    ensures y + NavbarHeight == target.top
  {
    target.top - NavbarHeight
  }

  /** The shared tail of every anchor handler once the target was found: scroll
      to it, and make exactly the link that names it active. `closeMenu` says
      whether the handler also clears the menu flags. */
  function GoTo(p: Page, targetId: string, target: Section, closeMenu: bool): (q: Page)
    ensures q.scrollRequest == Some(target.top - NavbarHeight)
    ensures q.menu == if closeMenu then Closed else p.menu
    ensures q.sections == p.sections
    ensures |q.links| == |p.links|
    ensures forall i | 0 <= i < |q.links| :: q.links[i].href == p.links[i].href
    ensures forall i | 0 <= i < |q.links| :: q.links[i].active <==> q.links[i].href == "#" + targetId
  {
    Page(if closeMenu then Closed else p.menu, p.sections, Activate(p.links, targetId), Some(ScrollTarget(target)))
  }

  /** `initSimpleNavigation`, click on a `.nav-link`: strip the first character
      of the `href`, look the id up, and do nothing if no element has it. */
  function SimpleNavClick(p: Page, href: string): (q: Page)
    ensures GetElementById(p.sections, DropFirst(href)).None? ==> q == p
    ensures GetElementById(p.sections, DropFirst(href)).Some? ==>
      && q.menu == Closed
      && q.scrollRequest == Some(GetElementById(p.sections, DropFirst(href)).value.top - NavbarHeight)
      && forall i | 0 <= i < |q.links| :: q.links[i].active <==> q.links[i].href == "#" + DropFirst(href)
    ensures q.sections == p.sections && |q.links| == |p.links|
    ensures forall i | 0 <= i < |q.links| :: q.links[i].href == p.links[i].href
  {
    var targetId := DropFirst(href);
    match GetElementById(p.sections, targetId)
    case None => p
    case Some(target) => GoTo(p, targetId, target, true)
  }

  /** `initSimpleNavigation`, click on a hero button: as a nav link, but the
      menu flags are left alone. */
  function HeroButtonClick(p: Page, href: string): (q: Page)
    ensures q.menu == p.menu
    ensures q.sections == p.sections && |q.links| == |p.links|
    ensures forall i | 0 <= i < |q.links| :: q.links[i].href == p.links[i].href
    ensures GetElementById(p.sections, DropFirst(href)).None? ==> q == p
    ensures GetElementById(p.sections, DropFirst(href)).Some? ==>
      && q.scrollRequest == Some(GetElementById(p.sections, DropFirst(href)).value.top - NavbarHeight)
      && forall i | 0 <= i < |q.links| :: q.links[i].active <==> q.links[i].href == "#" + DropFirst(href)
  {
    var targetId := DropFirst(href);
    match GetElementById(p.sections, targetId)
    case None => p
    case Some(target) => GoTo(p, targetId, target, false)
  }

  /** `initCleanNavigation`, click on any `a[href^="#"]`: a bare `#` is ignored,
      a missing target is ignored, otherwise close the menu, scroll to the
      target less the navbar height, and make exactly the matching link active. */
  function CleanNavClick(p: Page, href: string): (q: Page)
    requires |href| > 0 && href[0] == '#'
    ensures href == "#" ==> q == p
    ensures GetElementById(p.sections, href[1..]).None? ==> q == p
    ensures GetElementById(p.sections, href[1..]).Some? ==>
      && q.menu == Closed
      && q.scrollRequest == Some(GetElementById(p.sections, href[1..]).value.top - NavbarHeight)
      && q.sections == p.sections
      && |q.links| == |p.links|
      && forall i | 0 <= i < |q.links| :: q.links[i].href == p.links[i].href && (q.links[i].active <==> q.links[i].href == href)
  {
    if href == "#" then p
    else
      var targetId := href[1..];
      assert href == "#" + targetId;
      match GetElementById(p.sections, targetId)
      case None => p
      case Some(target) => GoTo(p, targetId, target, true)
  }

  /** The `#` guard of the clean variant is behaviourally redundant: without it
      the lookup of the empty id finds nothing, so both handlers agree on every
      `#`-prefixed link. */
  lemma HashGuardRedundant(p: Page, href: string)
    requires |href| > 0 && href[0] == '#'
    ensures CleanNavClick(p, href) == SimpleNavClick(p, href)
  {
  }

  /** A whole click on a hero button in `js/script.js`: its own handler, then
      the document handler it bubbles to. Hero buttons lie outside both the
      hamburger and the menu, so the click also closes the menu. */
  function HeroButtonClickMain(p: Page, href: string): (q: Page)
    ensures q.menu == Closed
    ensures q.sections == p.sections && |q.links| == |p.links|
    ensures forall i | 0 <= i < |q.links| :: q.links[i].href == p.links[i].href
    ensures q.links == HeroButtonClick(p, href).links && q.scrollRequest == HeroButtonClick(p, href).scrollRequest
  {
    var r := HeroButtonClick(p, href);
    r.(menu := DocumentClick(r.menu, false, false))
  }

  /** A click on a `.nav-link` runs the mobile menu's link handler first and
      the navigation handler second (their registration order), so in both
      variants the menu ends up closed, whether or not the target exists. */
  function NavLinkClickMain(p: Page, href: string): (q: Page)
    ensures q.menu == Closed && Synced(q.menu)
    ensures q.sections == p.sections
    ensures q.links == SimpleNavClick(p, href).links && q.scrollRequest == SimpleNavClick(p, href).scrollRequest
  {
    SimpleNavClick(p.(menu := LinkClick(p.menu)), href)
  }

  /** As `NavLinkClickMain`, for the clean variant. */
  function NavLinkClickClean(p: Page, href: string): (q: Page)
    requires |href| > 0 && href[0] == '#'
    ensures q.menu == Closed && Synced(q.menu)
    ensures q.links == (if GetElementById(p.sections, href[1..]).Some? then Activate(p.links, href[1..]) else p.links)
    ensures q.sections == p.sections
    ensures q.scrollRequest == (if GetElementById(p.sections, href[1..]).Some?
      then Some(GetElementById(p.sections, href[1..]).value.top - NavbarHeight) else p.scrollRequest)
  {
    CleanNavClick(p.(menu := LinkClick(p.menu)), href)
  }

  /** `updateActiveNavOnScroll`: only the links change, and they change as the
      scroll-spy rule says. */
  function OnScroll(p: Page, pageY: int): (q: Page)
    ensures q.menu == p.menu && q.sections == p.sections && q.scrollRequest == p.scrollRequest
    ensures |q.links| == |p.links|
    ensures forall i | 0 <= i < |q.links| :: q.links[i].href == p.links[i].href
    ensures pageY < TopThreshold ==> forall i | 0 <= i < |q.links| :: q.links[i].active <==> q.links[i].href == "#home"
    ensures pageY >= TopThreshold && NoneContains(p.sections, pageY + ProbeOffset) ==>
      forall i | 0 <= i < |q.links| :: q.links[i].active <==> q.links[i].href == "#"
    ensures pageY >= TopThreshold ==> forall k | IsLastContaining(p.sections, pageY + ProbeOffset, k) ::
      forall i | 0 <= i < |q.links| :: q.links[i].active <==> q.links[i].href == "#" + p.sections[k].id
  {
    p.(links := UpdateActiveLink(p.sections, p.links, pageY))
  }
}

=== FILE: options.dfy ===
/** Small shared vocabulary: optional values (a JavaScript `null` or a missing
    entry) and the one string helper the handlers share. */
module Options {

  /** `None` stands for JavaScript's `null`: a missing storage entry, a missing
      form field, an element that `getElementById` did not find. */
  datatype Option<+T> = None | Some(value: T)

  /** `s.substring(1)` on a JavaScript string: the empty string stays empty. */
  function DropFirst(s: string): (r: string)
    ensures |s| == 0 ==> r == s
    ensures |s| > 0 ==> [s[0]] + r == s
  {
    if |s| == 0 then s else s[1..]
  }
}

=== FILE: reveal.dfy ===
/** The one-shot reveal observers of `initAboutAnimations`,
    `initExperienceAnimations` and `initEducationAnimations`, as transitions
    on the observed set, the `in-view` set and the pending stagger timers. */
module Reveal {

  /** An element, by its position in the document. */
  type Elem = nat

  /** A pending `setTimeout(() => el.classList.add('in-view'), delay)`. */
  datatype Timer = Timer(target: Elem, delay: nat)

  /** One `IntersectionObserverEntry`. */
  datatype Entry = Entry(target: Elem, isIntersecting: bool)

  /** The state of one observer and the elements it reveals. */
  datatype Observer = Observer(observed: set<Elem>, inView: set<Elem>, timers: seq<Timer>)

  /** What a callback does beyond revealing its target: nothing (experience
      items), stagger the badges inside the item by 120 ms (education items),
      or stagger every stat block by 150 ms (the about block). */
  datatype Kind = Experience | Education(badges: map<Elem, seq<Elem>>) | About(stats: seq<Elem>)

  const BadgeStep: nat := 120
  const StatStep: nat := 150

  /** `elems.forEach((el, idx) => setTimeout(..., idx * step))`. */
  function Stagger(elems: seq<Elem>, step: nat): (ts: seq<Timer>)
    ensures |ts| == |elems|
    ensures forall i | 0 <= i < |ts| :: ts[i].target == elems[i] && ts[i].delay == i * step
    ensures step > 0 ==> forall i, j | 0 <= i < j < |ts| :: ts[i].delay < ts[j].delay
    ensures |ts| > 0 ==> ts[0].delay == 0
  {
    var ts := seq(|elems|, i requires 0 <= i < |elems| => Timer(elems[i], i * step));
    assert step > 0 ==> forall i, j | 0 <= i < j < |ts| :: ts[i].delay < ts[j].delay by {
      if step > 0 {
        forall i, j | 0 <= i < j < |ts| ensures ts[i].delay < ts[j].delay {
          MulStrict(i, j, step);
        }
      }
    }
    ts
  }

  lemma MulStrict(i: nat, j: nat, step: nat)
    requires i < j && step > 0
    ensures i * step < j * step
  {
    assert j * step == i * step + (j - i) * step;
  }

  /** The badges inside an education item. */
  function BadgesOf(badges: map<Elem, seq<Elem>>, item: Elem): seq<Elem>
  {
    if item in badges then badges[item] else []
  }

  /** The timers a reveal of `target` schedules. */
  function Staggered(k: Kind, target: Elem): seq<Timer>
  {
    match k
    case Experience => []
    case Education(badges) => Stagger(BadgesOf(badges, target), BadgeStep)
    case About(stats) => Stagger(stats, StatStep)
  }

  /** `observer.observe(el)` for every element found; none when the list is
      empty or the element is missing. */
  function Observe(items: seq<Elem>): (o: Observer)
    ensures forall e :: e in o.observed <==> e in items
    ensures o.inView == {} && o.timers == []
  {
    Observer(set e | e in items, {}, [])
  }

  /** The callback on one entry: an intersecting target gains `in-view`,
      schedules its staggered reveals and is unobserved; any other entry
      changes nothing. */
  function OnEntry(k: Kind, o: Observer, e: Entry): (r: Observer)
    ensures e.isIntersecting ==> r.inView == o.inView + {e.target} && r.observed == o.observed - {e.target}
    ensures e.isIntersecting ==> r.timers == o.timers + Staggered(k, e.target)
    ensures !e.isIntersecting ==> r == o
  {
    if e.isIntersecting then
      Observer(o.observed - {e.target}, o.inView + {e.target}, o.timers + Staggered(k, e.target))
    else o
  }

  /** The targets of the intersecting entries of a batch. */
  function Revealed(entries: seq<Entry>): set<Elem>
  {
    set i | 0 <= i < |entries| && entries[i].isIntersecting :: entries[i].target
  }

  /** The timers a batch schedules: the staggered timers of each intersecting
      entry, in entry order. */
  function Scheduled(k: Kind, entries: seq<Entry>): seq<Timer>
    decreases |entries|
  {
    if |entries| == 0 then []
    else (if entries[0].isIntersecting then Staggered(k, entries[0].target) else []) + Scheduled(k, entries[1..])
  }

  /** Every timer of every intersecting entry of a batch is among the ones it
      schedules. */
  lemma {:induction false} ScheduledCoversEntries(k: Kind, entries: seq<Entry>, i: int)
    requires 0 <= i < |entries| && entries[i].isIntersecting
    ensures forall t | t in Staggered(k, entries[i].target) :: t in Scheduled(k, entries)
    decreases |entries|
  {
    if i > 0 {
      ScheduledCoversEntries(k, entries[1..], i - 1);
      assert entries[1..][i - 1] == entries[i];
    }
  }

  /** `entries.forEach(...)`: the whole batch is processed, including entries
      whose target was unobserved earlier in the same batch. */
  function Callback(k: Kind, o: Observer, entries: seq<Entry>): (r: Observer)
    ensures r.inView == o.inView + Revealed(entries)
    ensures r.observed == o.observed - Revealed(entries)
    ensures r.timers == o.timers + Scheduled(k, entries)
    decreases |entries|
  {
    if |entries| == 0 then o
    else
      CallbackStep(k, o, entries);
      Callback(k, OnEntry(k, o, entries[0]), entries[1..])
  }

  /** The first entry of a batch followed by the rest has the effect of the
      whole batch. */
  lemma CallbackStep(k: Kind, o: Observer, entries: seq<Entry>)
    requires |entries| > 0
    ensures OnEntry(k, o, entries[0]).inView + Revealed(entries[1..]) == o.inView + Revealed(entries)
    ensures OnEntry(k, o, entries[0]).observed - Revealed(entries[1..]) == o.observed - Revealed(entries)
    ensures OnEntry(k, o, entries[0]).timers + Scheduled(k, entries[1..]) == o.timers + Scheduled(k, entries)
  {
    RevealedSplit(entries);
    var o1 := OnEntry(k, o, entries[0]);
    var first := Revealed(entries[..1]);
    SetStep(o.inView, o.observed, first, Revealed(entries[1..]));
    assert o1.inView == o.inView + first && o1.observed == o.observed - first;
    TimersStep(k, o, entries);
  }

  /** Adding or removing a first set and then the rest is adding or removing
      their union. */
  lemma SetStep(inView: set<Elem>, observed: set<Elem>, first: set<Elem>, rest: set<Elem>)
    ensures (inView + first) + rest == inView + (first + rest)
    ensures (observed - first) - rest == observed - (first + rest)
  {
  }

  /** The first entry's timers followed by the rest's are the batch's. */
  lemma TimersStep(k: Kind, o: Observer, entries: seq<Entry>)
    requires |entries| > 0
    ensures OnEntry(k, o, entries[0]).timers + Scheduled(k, entries[1..]) == o.timers + Scheduled(k, entries)
  {
    var first := if entries[0].isIntersecting then Staggered(k, entries[0].target) else [];
    var rest := Scheduled(k, entries[1..]);
    assert OnEntry(k, o, entries[0]).timers == o.timers + first;
    assert Scheduled(k, entries) == first + rest;
    ConcatAssoc(o.timers, first, rest);
  }

  /** Concatenation of timer lists is associative. */
  lemma ConcatAssoc(a: seq<Timer>, b: seq<Timer>, c: seq<Timer>)
    ensures (a + b) + c == a + (b + c)
  {
  }

  lemma RevealedSplit(entries: seq<Entry>)
    requires |entries| > 0
    ensures Revealed(entries) == Revealed(entries[..1]) + Revealed(entries[1..])
    ensures Revealed(entries[..1]) == if entries[0].isIntersecting then {entries[0].target} else {}
  {
    var rest := entries[1..];
    forall t | t in Revealed(entries)
      ensures t in Revealed(entries[..1]) + Revealed(rest)
    {
      var i :| 0 <= i < |entries| && entries[i].isIntersecting && entries[i].target == t;
      if i > 0 { assert rest[i - 1] == entries[i]; }
      else { assert entries[..1][0] == entries[0]; }
    }
    forall t | t in Revealed(rest)
      ensures t in Revealed(entries)
    {
      var i :| 0 <= i < |rest| && rest[i].isIntersecting && rest[i].target == t;
      assert entries[i + 1] == rest[i];
    }
  }

  /** The browser reports only targets that are still observed when the batch
      is formed. */
  predicate Deliverable(o: Observer, entries: seq<Entry>)
  {
    forall i | 0 <= i < |entries| :: entries[i].target in o.observed
  }

  /** The reveal is one-shot: after a callback, every revealed element is in
      view and can no longer appear in any batch the browser delivers. */
  lemma RevealedNeverFiresAgain(k: Kind, o: Observer, entries: seq<Entry>, later: seq<Entry>)
    requires Deliverable(Callback(k, o, entries), later)
    ensures forall i | 0 <= i < |later| :: later[i].target !in Revealed(entries)
    ensures Revealed(entries) <= Callback(k, o, entries).inView
  {
  }

  /** The observer after a sequence of batches, delivered in order. */
  function Run(k: Kind, o: Observer, batches: seq<seq<Entry>>): Observer
    decreases |batches|
  {
    if |batches| == 0 then o else Run(k, Callback(k, o, batches[0]), batches[1..])
  }

  /** Over any run of callbacks the `in-view` set only grows and the observed
      set only shrinks. */
  lemma {:induction false} RunMonotone(k: Kind, o: Observer, batches: seq<seq<Entry>>)
    ensures o.inView <= Run(k, o, batches).inView
    ensures Run(k, o, batches).observed <= o.observed
    ensures Run(k, o, batches).observed !! Run(k, o, batches).inView - o.inView
    decreases |batches|
  {
    if |batches| > 0 {
      var o1 := Callback(k, o, batches[0]);
      RunMonotone(k, o1, batches[1..]);
    }
  }

  /** Delivering the same batch twice leaves the sets as one delivery does. */
  lemma CallbackIdempotent(k: Kind, o: Observer, entries: seq<Entry>)
    ensures Callback(k, Callback(k, o, entries), entries).inView == Callback(k, o, entries).inView
    ensures Callback(k, Callback(k, o, entries), entries).observed == Callback(k, o, entries).observed
  {
  }

  /** The stagger timers firing: each scheduled element gains `in-view`. */
  function FireTimers(o: Observer): (r: Observer)
    ensures r.observed == o.observed && r.timers == []
    ensures r.inView == o.inView + set i | 0 <= i < |o.timers| :: o.timers[i].target
  {
    Observer(o.observed, o.inView + set i | 0 <= i < |o.timers| :: o.timers[i].target, [])
  }

  /** Once the about block is revealed and the timers have fired, the block
      and every stat block are in view, the stats in document order of delay. */
  lemma AboutRevealsAllStats(stats: seq<Elem>, block: Elem)
    ensures var r := FireTimers(Callback(About(stats), Observe([block]), [Entry(block, true)]));
      block in r.inView && forall i | 0 <= i < |stats| :: stats[i] in r.inView
  {
    var e := Entry(block, true);
    var o1 := OnEntry(About(stats), Observe([block]), e);
    assert [e][1..] == [];
    var o := Callback(About(stats), Observe([block]), [e]);
    assert Callback(About(stats), o1, []) == o1;
    assert o == Callback(About(stats), o1, [e][1..]);
    assert o.timers == Stagger(stats, StatStep);
    forall i | 0 <= i < |stats| ensures stats[i] in FireTimers(o).inView {
      assert o.timers[i].target == stats[i];
    }
  }
}

=== FILE: scrollspy.dfy ===
/** Scroll-spy: which `section[id]` holds the current scroll position, and which
    `.nav-link` is marked `active` as a result. */
module ScrollSpy {

  /** A `section` element with an `id`: its `offsetTop` and `offsetHeight` in pixels. */
  datatype Section = Section(id: string, top: int, height: int)

  /** A navigation link: its `href` attribute and whether it carries `active`. */
  datatype Link = Link(href: string, active: bool)

  /** The probe point sits this far below the top of the viewport (the navbar). */
  const ProbeOffset: int := 100
  /** Below this scroll offset the page counts as "at the top". */
  const TopThreshold: int := 50
  const Home: string := "home"

  /** The half-open interval `[top, top + height)` of a section contains `pos`. */
  predicate Contains(s: Section, pos: int)
  {
    s.top <= pos < s.top + s.height
  }

  /** No section of the list contains `pos`. */
  predicate NoneContains(sections: seq<Section>, pos: int)
  {
    forall k | 0 <= k < |sections| :: !Contains(sections[k], pos)
  }

  /** `k` is the last section in document order that contains `pos`. */
  predicate IsLastContaining(sections: seq<Section>, pos: int, k: int)
  {
    && 0 <= k < |sections|
    && Contains(sections[k], pos)
    && forall j | k < j < |sections| :: !Contains(sections[j], pos)
  }

  /** At most one index is the last containing one. */
  lemma LastContainingUnique(sections: seq<Section>, pos: int, k1: int, k2: int)
    requires IsLastContaining(sections, pos, k1) && IsLastContaining(sections, pos, k2)
    ensures k1 == k2
  {
  }

  /** The `sections.forEach` scan: every containing section overwrites the
      current candidate, so the last one in document order wins; `acc` is the
      candidate before the scan. */
  function Scan(sections: seq<Section>, pos: int, acc: string): (r: string)
    ensures NoneContains(sections, pos) ==> r == acc
    ensures !NoneContains(sections, pos) ==>
      exists k :: IsLastContaining(sections, pos, k) && r == sections[k].id
    decreases |sections|
  {
    if |sections| == 0 then acc
    else
      var rest := sections[1..];
      var r := Scan(rest, pos, if Contains(sections[0], pos) then sections[0].id else acc);
      assert !NoneContains(rest, pos) ==> exists k :: IsLastContaining(sections, pos, k) && r == sections[k].id by {
        if !NoneContains(rest, pos) {
          var k :| IsLastContaining(rest, pos, k) && r == rest[k].id;
          assert IsLastContaining(sections, pos, k + 1);
        }
      }
      r
  }

  /** `updateActiveLink`'s choice of the current section id for a scroll offset:
      the last section containing `pageY + 100`, `""` when there is none, and
      `home` whenever `pageY < 50`, whatever the scan found. */
  function CurrentSection(sections: seq<Section>, pageY: int): (current: string)
    ensures pageY < TopThreshold ==> current == Home
    ensures pageY >= TopThreshold && NoneContains(sections, pageY + ProbeOffset) ==> current == ""
    ensures pageY >= TopThreshold && !NoneContains(sections, pageY + ProbeOffset) ==>
      exists k :: IsLastContaining(sections, pageY + ProbeOffset, k) && current == sections[k].id
  {
    var scanned := Scan(sections, pageY + ProbeOffset, "");
    if pageY < TopThreshold then Home else scanned
  }

  /** `updateActiveNavLink` / the tail of `updateActiveLink`: every link loses
      `active`, then exactly the links whose `href` is `#` + `id` regain it. */
  function Activate(links: seq<Link>, id: string): (r: seq<Link>)
    ensures |r| == |links|
    ensures forall i | 0 <= i < |r| :: r[i].href == links[i].href
    ensures forall i | 0 <= i < |r| :: r[i].active <==> links[i].href == "#" + id
    decreases |links|
  {
    if |links| == 0 then []
    else [Link(links[0].href, links[0].href == "#" + id)] + Activate(links[1..], id)
  }

  /** One scroll update: choose the current section, then mark the links. */
  function UpdateActiveLink(sections: seq<Section>, links: seq<Link>, pageY: int): (r: seq<Link>)
    ensures |r| == |links|
    ensures forall i | 0 <= i < |r| :: r[i].href == links[i].href
    ensures pageY < TopThreshold ==> forall i | 0 <= i < |r| :: r[i].active <==> r[i].href == "#home"
    ensures pageY >= TopThreshold && NoneContains(sections, pageY + ProbeOffset) ==>
      forall i | 0 <= i < |r| :: r[i].active <==> r[i].href == "#"
    ensures pageY >= TopThreshold ==> forall k | IsLastContaining(sections, pageY + ProbeOffset, k) ::
      forall i | 0 <= i < |r| :: r[i].active <==> r[i].href == "#" + sections[k].id
  {
    var current := CurrentSection(sections, pageY);
    forall k | pageY >= TopThreshold && IsLastContaining(sections, pageY + ProbeOffset, k)
      ensures current == sections[k].id
    {
      var k' :| IsLastContaining(sections, pageY + ProbeOffset, k') && current == sections[k'].id;
      LastContainingUnique(sections, pageY + ProbeOffset, k, k');
    }
    Activate(links, current)
  }

  /** The links' `href`s are pairwise distinct. */
  predicate DistinctHrefs(links: seq<Link>)
  {
    forall i, j | 0 <= i < j < |links| :: links[i].href != links[j].href
  }

  /** With distinct `href`s, exactly one link is active when some link points
      at the section, and none otherwise. */
  lemma ExactlyOneActive(links: seq<Link>, id: string)
    requires DistinctHrefs(links)
    ensures (exists i | 0 <= i < |links| :: links[i].href == "#" + id) ==>
      exists i | 0 <= i < |links| :: Activate(links, id)[i].active &&
        forall j | 0 <= j < |links| && Activate(links, id)[j].active :: j == i
    ensures (forall i | 0 <= i < |links| :: links[i].href != "#" + id) ==>
      forall i | 0 <= i < |links| :: !Activate(links, id)[i].active
  {
    var r := Activate(links, id);
    if i :| 0 <= i < |links| && links[i].href == "#" + id {
      forall j | 0 <= j < |links| && r[j].active
        ensures j == i
      {
        assert links[j].href == links[i].href;
      }
    }
  }

  /** The outcome does not depend on which links were active before, and
      repeating the update changes nothing. */
  lemma ActivateForgetsPast(a: seq<Link>, b: seq<Link>, id: string)
    requires |a| == |b|
    requires forall i | 0 <= i < |a| :: a[i].href == b[i].href
    ensures Activate(a, id) == Activate(b, id)
    ensures Activate(Activate(a, id), id) == Activate(a, id)
  {
    var ra, rb := Activate(a, id), Activate(b, id);
    assert forall i | 0 <= i < |ra| :: ra[i] == rb[i];
    var rr := Activate(ra, id);
    assert forall i | 0 <= i < |ra| :: rr[i] == ra[i];
  }
}

=== FILE: theme.dfy ===
/** The light/dark theme switch: the `data-theme` attribute of the document
    element, the `theme` entry of local storage and the icon of the toggle button. */
module Theme {
  import opened Options

  const Light: string := "light"
  const Dark: string := "dark"

  /** The class of the icon inside the toggle button: `fas fa-sun` or `fas fa-moon`. */
  datatype Icon = Sun | Moon

  /** Everything the theme handlers read or write. `stored` is the `theme`
      entry of local storage (`None` when absent). */
  datatype ThemeState = ThemeState(attribute: string, stored: Option<string>, icon: Icon)

  /** The theme a page load starts with: `localStorage.getItem('theme') || 'light'`.
      Both a missing entry and an empty string are falsy, so both give `light`. */
  function InitialTheme(stored: Option<string>): (t: string)
    ensures t != ""
    ensures t == Light <==> stored == None || stored == Some("") || stored == Some(Light)
    ensures stored.Some? && stored.value != "" ==> t == stored.value
  {
    if stored.Some? && stored.value != "" then stored.value else Light
  }

  /** `updateThemeIcon`: the sun is shown exactly in dark mode. */
  function IconFor(theme: string): (i: Icon)
    ensures i == Sun <==> theme == Dark
    ensures i == Moon <==> theme != Dark
  {
    if theme == Dark then Sun else Moon
  }

  /** The new theme chosen by a click: `dark` becomes `light`, anything else becomes `dark`. */
  function Toggled(theme: string): (t: string)
    ensures t == Light || t == Dark
    ensures t == Light <==> theme == Dark
    ensures t != theme
  {
    if theme == Dark then Light else Dark
  }

  /** The theme state is coherent: the icon follows the attribute, and reloading
      the page from storage would give back the same attribute. */
  predicate Coherent(s: ThemeState)
  {
    s.icon == IconFor(s.attribute) && InitialTheme(s.stored) == s.attribute
  }

  /** Page load: read storage, set the attribute, set the icon; storage is not written. */
  function Init(stored: Option<string>): (s: ThemeState)
    ensures s.stored == stored
    ensures s.attribute != ""
    ensures stored == None ==> s.attribute == Light && s.icon == Moon
    ensures s.icon == Sun <==> s.attribute == Dark
    ensures Coherent(s)
  {
    var t := InitialTheme(stored);
    ThemeState(t, stored, IconFor(t))
  }

  /** The click handler of the toggle button: the new theme is written to the
      attribute and to storage, and the icon is updated. */
  function Click(s: ThemeState): (r: ThemeState)
    ensures r.attribute == Light || r.attribute == Dark
    ensures r.attribute == Dark <==> s.attribute != Dark
    ensures r.stored == Some(r.attribute)
    ensures r.icon == Sun <==> r.attribute == Dark
    ensures Coherent(r)
  {
    var t := Toggled(s.attribute);
    ThemeState(t, Some(t), IconFor(t))
  }

  /** `n` successive clicks of the toggle button. */
  function Clicks(s: ThemeState, n: nat): ThemeState
  {
    if n == 0 then s else Click(Clicks(s, n - 1))
  }

  /** Two toggles give back the theme exactly when it was `light` or `dark`;
      any other value (a hand-edited storage entry) ends up as `light`. */
  lemma TwoTogglesRestore(t: string)
    ensures Toggled(Toggled(t)) == t <==> t == Light || t == Dark
    ensures t != Dark ==> Toggled(Toggled(t)) == Light
  {
  }

  /** Clicking twice returns to the starting state exactly when the state was
      coherent and its theme was one of the two known values. */
  lemma DoubleClick(s: ThemeState)
    requires Coherent(s)
    ensures Click(Click(s)).attribute == s.attribute <==> s.attribute == Light || s.attribute == Dark
    ensures s.stored == Some(s.attribute) && (s.attribute == Light || s.attribute == Dark) ==> Click(Click(s)) == s
  {
    TwoTogglesRestore(s.attribute);
  }

  /** Reloading the page from storage reproduces a coherent state. */
  lemma ReloadRestores(s: ThemeState)
    requires Coherent(s)
    ensures Init(s.stored) == s
  {
  }

  /** After any number of clicks following a page load the state stays coherent,
      and after at least one click the attribute is the stored value and is
      `dark` exactly when the click count and the start disagree in parity. */
  lemma {:induction false} ClicksFromLoad(stored: Option<string>, n: nat)
    ensures Coherent(Clicks(Init(stored), n))
    ensures n > 0 ==> Clicks(Init(stored), n).stored == Some(Clicks(Init(stored), n).attribute)
    ensures n > 0 ==> (Clicks(Init(stored), n).attribute == Dark <==> (n % 2 == 1) == (Init(stored).attribute != Dark))
  {
    if n > 1 {
      ClicksFromLoad(stored, n - 1);
    }
  }
}

=== FILE: typewriter.dfy ===
/** The hero-title typing effects: one character per timer tick until the
    text is exhausted. */
module Typewriter {

  /** The state of a plain character typer (`initTypingEffect`,
      `initTypewriterEffect`): the next index, the text typed so far, and
      whether the final tick (the blinking cursor, or simply no re-arm) ran. */
  datatype Typer = Typer(index: nat, output: string, finished: bool)

  /** One tick: append the next character, or finish when none is left. */
  function TypeStep(text: string, t: Typer): (r: Typer)
    ensures t.index < |text| ==> r.index == t.index + 1 && r.output == t.output + [text[t.index]] && !r.finished
    ensures t.index >= |text| ==> r.finished && r.index == t.index && r.output == t.output
  {
    if t.index < |text| then Typer(t.index + 1, t.output + [text[t.index]], false)
    else t.(finished := true)
  }

  /** The typer after `n` ticks, from an empty output. */
  function TypeSteps(text: string, n: nat): Typer
  {
    if n == 0 then Typer(0, "", false) else TypeStep(text, TypeSteps(text, n - 1))
  }

  /** After `n` ticks the output is the first `n` characters; after
      `|text|` ticks the whole text is out, and every later tick only
      finishes. */
  lemma {:induction false} TypeStepsPrefix(text: string, n: nat)
    ensures n <= |text| ==> TypeSteps(text, n) == Typer(n, text[..n], false)
    ensures n > |text| ==> TypeSteps(text, n) == Typer(|text|, text, true)
  {
    if n > 0 {
      TypeStepsPrefix(text, n - 1);
      if n <= |text| {
        assert text[..n - 1] + [text[n - 1]] == text[..n];
      } else {
        assert text[..|text|] == text;
      }
    }
  }

  /** What `initTypewriterAnimation` appends to its container, as tokens
      rather than re-parsed markup. */
  datatype Token = Char(c: char) | OpenHighlight | CloseHighlight

  /** The characters of `s` as tokens. */
  function Text(s: string): (ts: seq<Token>)
    ensures |ts| == |s| && forall i | 0 <= i < |s| :: ts[i] == Char(s[i])
  {
    seq(|s|, i requires 0 <= i < |s| => Char(s[i]))
  }

  lemma TextAppend(a: string, b: string)
    ensures Text(a + b) == Text(a) + Text(b)
  {
  }

  /** The characters carried by a token sequence, in order. */
  function Chars(ts: seq<Token>): string
    decreases |ts|
  {
    if |ts| == 0 then ""
    else Chars(ts[..|ts| - 1]) + (if ts[|ts| - 1].Char? then [ts[|ts| - 1].c] else "")
  }

  lemma {:induction false} CharsAppend(a: seq<Token>, b: seq<Token>)
    ensures Chars(a + b) == Chars(a) + Chars(b)
    decreases |b|
  {
    if |b| > 0 {
      var b' := b[..|b| - 1];
      assert (a + b)[..|a + b| - 1] == a + b';
      CharsAppend(a, b');
    } else {
      assert a + b == a;
    }
  }

  /** `sub` occurs in `s` at index `i`. */
  predicate OccursAt(s: string, sub: string, i: int)
  {
    0 <= i && i + |sub| <= |s| && s[i..i + |sub|] == sub
  }

  /** `String.prototype.indexOf`: the first index at which `sub` occurs in `s`,
      or -1. */
  function IndexOf(s: string, sub: string): (r: int)
    ensures -1 <= r
    ensures r >= 0 ==> OccursAt(s, sub, r)
    ensures r >= 0 ==> forall i | 0 <= i < r :: !OccursAt(s, sub, i)
    ensures r == -1 <==> forall i :: !OccursAt(s, sub, i)
  {
    IndexOfFrom(s, sub, 0)
  }

  function IndexOfFrom(s: string, sub: string, from: nat): (r: int)
    requires forall i | 0 <= i < from :: !OccursAt(s, sub, i)
    ensures -1 <= r
    ensures r >= 0 ==> from <= r && OccursAt(s, sub, r)
    ensures r >= 0 ==> forall i | 0 <= i < r :: !OccursAt(s, sub, i)
    ensures r == -1 <==> forall i :: !OccursAt(s, sub, i)
    decreases |s| - from
  {
    if from + |sub| > |s| then -1
    else if s[from..from + |sub|] == sub then assert OccursAt(s, sub, from); from
    else IndexOfFrom(s, sub, from + 1)
  }

  /** The tokens of the tick that types index `i`: the highlight opens just
      before the character at `start`, and closes just after the last one. */
  function StepTokens(full: string, start: int, i: nat): (ts: seq<Token>)
    requires i < |full|
    ensures |ts| == (if i == start then 1 else 0) + 1 + (if i == |full| - 1 then 1 else 0)
    ensures ts[0] == OpenHighlight <==> i == start
    ensures (if i == start then 1 else 0) < |ts| && ts[if i == start then 1 else 0] == Char(full[i])
    ensures ts[|ts| - 1] == CloseHighlight <==> i == |full| - 1
  {
    (if i == start then [OpenHighlight] else []) + [Char(full[i])] + (if i == |full| - 1 then [CloseHighlight] else [])
  }

  /** The tokens appended by the first `n` ticks. */
  function Emitted(full: string, start: int, n: nat): seq<Token>
    requires n <= |full|
  {
    if n == 0 then [] else Emitted(full, start, n - 1) + StepTokens(full, start, n - 1)
  }

  /** The characters of a single token. */
  lemma CharsSingle(t: Token)
    ensures Chars([t]) == if t.Char? then [t.c] else ""
  {
    assert [t][..0] == [];
  }

  /** A token sequence without characters carries none. */
  lemma {:induction false} CharsOfMarkers(ts: seq<Token>)
    requires forall t | t in ts :: !t.Char?
    ensures Chars(ts) == ""
    decreases |ts|
  {
    if |ts| > 0 {
      assert ts[|ts| - 1] in ts;
      var init := ts[..|ts| - 1];
      assert forall t | t in init :: t in ts;
      CharsOfMarkers(init);
    }
  }

  /** One tick types exactly its character. */
  lemma StepTokensFacts(full: string, start: int, i: nat)
    requires i < |full|
    ensures Chars(StepTokens(full, start, i)) == [full[i]]
  {
    var open: seq<Token> := if i == start then [OpenHighlight] else [];
    var close: seq<Token> := if i == |full| - 1 then [CloseHighlight] else [];
    var c: seq<Token> := [Char(full[i])];
    assert StepTokens(full, start, i) == (open + c) + close;
    CharsOfMarkers(open);
    CharsOfMarkers(close);
    CharsSingle(Char(full[i]));
    CharsAppend(open, c);
    assert Chars(open + c) == [full[i]];
    CharsAppend(open + c, close);
  }

  /** A tick emits the open token exactly at `start` and the close token
      exactly at the last index. */
  lemma StepTokensMarkers(full: string, start: int, i: nat)
    requires i < |full|
    ensures OpenHighlight in StepTokens(full, start, i) <==> i == start
    ensures CloseHighlight in StepTokens(full, start, i) <==> i == |full| - 1
  {
  }

  /** The typed characters are the text's prefix. */
  lemma {:induction false} EmittedChars(full: string, start: int, n: nat)
    requires n <= |full|
    ensures Chars(Emitted(full, start, n)) == full[..n]
  {
    if n > 0 {
      var prev := Emitted(full, start, n - 1);
      var step := StepTokens(full, start, n - 1);
      assert Emitted(full, start, n) == prev + step;
      EmittedChars(full, start, n - 1);
      StepTokensFacts(full, start, n - 1);
      AppendTyped(prev, step, full, n);
    }
  }

  /** Appending the tokens of the tick that types `full[n - 1]` to output
      carrying `full[..n - 1]` gives output carrying `full[..n]`. */
  lemma AppendTyped(prev: seq<Token>, step: seq<Token>, full: string, n: nat)
    requires 0 < n <= |full|
    requires Chars(prev) == full[..n - 1] && Chars(step) == [full[n - 1]]
    ensures Chars(prev + step) == full[..n]
  {
    CharsAppend(prev, step);
    assert full[..n - 1] + [full[n - 1]] == full[..n];
  }

  /** The open token is out exactly once the tick at `start` ran; the close
      token is out exactly after the last character. */
  lemma {:induction false} EmittedMarkers(full: string, start: int, n: nat)
    requires n <= |full|
    ensures OpenHighlight in Emitted(full, start, n) <==> 0 <= start < n
    ensures CloseHighlight in Emitted(full, start, n) <==> n == |full| && n > 0
  {
    if n > 0 {
      EmittedMarkers(full, start, n - 1);
      StepTokensMarkers(full, start, n - 1);
      assert Emitted(full, start, n) == Emitted(full, start, n - 1) + StepTokens(full, start, n - 1);
    }
  }

  /** With the highlight start inside the text, the full run lays out as the
      plain prefix, the open token, the highlighted rest and the close token. */
  lemma {:induction false} EmittedLayout(full: string, start: int, n: nat)
    requires 0 <= start < n <= |full|
    ensures Emitted(full, start, n) ==
      Text(full[..start]) + [OpenHighlight] + Text(full[start..n]) + (if n == |full| then [CloseHighlight] else [])
  {
    if n - 1 == start {
      LayoutOpen(full, start);
    } else {
      EmittedLayout(full, start, n - 1);
      LayoutExtend(full, start, n);
    }
  }

  /** The tick at `start` opens the highlight after the plain prefix. */
  lemma LayoutOpen(full: string, start: nat)
    requires start < |full|
    ensures Emitted(full, start, start + 1) ==
      Text(full[..start]) + [OpenHighlight] + Text(full[start..start + 1]) + (if start + 1 == |full| then [CloseHighlight] else [])
  {
    var close: seq<Token> := if start + 1 == |full| then [CloseHighlight] else [];
    var step := StepTokens(full, start, start);
    assert step == [OpenHighlight, Char(full[start])] + close;
    EmittedBeforeStart(full, start, start);
    assert Text(full[start..start + 1]) == [Char(full[start])];
  }

  /** A tick after `start` extends the highlighted part by one character. */
  lemma LayoutExtend(full: string, start: int, n: nat)
    requires 0 <= start < n - 1 && n <= |full|
    requires Emitted(full, start, n - 1) == Text(full[..start]) + [OpenHighlight] + Text(full[start..n - 1])
    ensures Emitted(full, start, n) ==
      Text(full[..start]) + [OpenHighlight] + Text(full[start..n]) + (if n == |full| then [CloseHighlight] else [])
  {
    var close: seq<Token> := if n == |full| then [CloseHighlight] else [];
    var step := StepTokens(full, start, n - 1);
    assert step == [Char(full[n - 1])] + close;
    TextAppend(full[start..n - 1], [full[n - 1]]);
    assert full[start..n - 1] + [full[n - 1]] == full[start..n];
  }

  lemma {:induction false} EmittedBeforeStart(full: string, start: int, n: nat)
    requires n <= start && n < |full|
    ensures Emitted(full, start, n) == Text(full[..n])
  {
    if n > 0 {
      EmittedBeforeStart(full, start, n - 1);
      TextAppend(full[..n - 1], [full[n - 1]]);
      assert full[..n - 1] + [full[n - 1]] == full[..n];
    }
  }

  /** The state of `initTypewriterAnimation`: the next index, the tokens so
      far, and whether the cursor has started blinking. */
  datatype Writer = Writer(index: nat, out: seq<Token>, blinking: bool)

  /** One `typeCharacter` tick. */
  function WriterStep(full: string, start: int, w: Writer): (r: Writer)
    requires w.index <= |full|
    ensures r.index <= |full|
    ensures w.index < |full| ==> r.index == w.index + 1 && !r.blinking && r.out == w.out + StepTokens(full, start, w.index)
    ensures w.index == |full| ==> r.index == w.index && r.out == w.out && r.blinking
  {
    if w.index < |full| then Writer(w.index + 1, w.out + StepTokens(full, start, w.index), false)
    else w.(blinking := true)
  }

  function WriterSteps(full: string, start: int, n: nat): (w: Writer)
    ensures w.index <= |full|
  {
    if n == 0 then Writer(0, [], false) else WriterStep(full, start, WriterSteps(full, start, n - 1))
  }

  /** The animation runs exactly `|full|` character ticks; every later tick
      only sets the cursor blinking and appends nothing. */
  lemma {:induction false} WriterRuns(full: string, start: int, n: nat)
    ensures n <= |full| ==> WriterSteps(full, start, n) == Writer(n, Emitted(full, start, n), false)
    ensures n > |full| ==> WriterSteps(full, start, n) == Writer(|full|, Emitted(full, start, |full|), true)
  {
    if n > 0 {
      WriterRuns(full, start, n - 1);
    }
  }

  const HeroText: string := "Hi, I'm V Ganesh"
  const HeroName: string := "V Ganesh"

  /** For the site's own text the highlight starts at index 8. */
  lemma HeroHighlightStart()
    ensures IndexOf(HeroText, HeroName) == 8
  {
    assert OccursAt(HeroText, HeroName, 8);
    forall i | 0 <= i < 8 ensures !OccursAt(HeroText, HeroName, i) {
      assert HeroText[i] != 'V';
    }
  }

  /** For the site's own text the highlight wraps exactly the name, and the
      whole title is typed. */
  lemma HeroTitle()
    ensures Emitted(HeroText, IndexOf(HeroText, HeroName), |HeroText|)
      == Text("Hi, I'm ") + [OpenHighlight] + Text(HeroName) + [CloseHighlight]
    ensures Chars(Emitted(HeroText, IndexOf(HeroText, HeroName), |HeroText|)) == HeroText
  {
    HeroHighlightStart();
    EmittedLayout(HeroText, 8, |HeroText|);
    assert HeroText[..8] == "Hi, I'm ";
    assert HeroText[8..] == HeroName;
    EmittedChars(HeroText, 8, |HeroText|);
    assert HeroText[..|HeroText|] == HeroText;
  }
}
